=== FILE: README.md ===
# Ingestion service: publish-path model in Dafny

This project models the core of a Go HTTP service. The service accepts user-activity
events from browsers, enriches them, and publishes them to Kafka through an asynchronous
sarama producer. The model covers the decision and transformation code on that path:

- configuration loading and validation from the environment (`config/config.go`);
- event enrichment and the response constructors (`models/models.go`);
- the Kafka service's configuration mapping and its lifecycle (`services/kafka_service.go`);
- the handler's validator, retry loop and outcome-to-response mapping (`handlers/event_handler.go`);
- the request-validation middleware (`middleware/validation.go`).

Everything is a pure function except two methods: the retry loop, whose loop
invariants carry the proof, and the `trackEvent` handler, which calls it.

Modules, one per source file, plus two helpers:

- `Wrappers`: `Option`, `Result`, `Outcome`.
- `Text`: the Go library routines the code depends on, written out. These are
  `strings.Split`/`Join` with a one-character separator, `strings.Contains` and a
  64-bit `strconv.Atoi`.
- `Config`: `config/config.go`.
- `Models`: `models/models.go`.
- `Services`: `services/kafka_service.go`.
- `Handlers`: `handlers/event_handler.go`.
- `Middleware`: `middleware/validation.go`.

Things outside the program become arguments:

- The process environment is a `map<string, string>`. A variable that is not in the
  map is unset.
- The clock and the UUID generator are explicit `Instant` and `string` arguments.
- The RFC 3339 parser (`time.Parse(time.RFC3339, _)`) is a function argument of type
  `string -> Option<Instant>`. The validator and the enricher receive the same one.
- `json.Marshal` is a function argument that may fail. `ShouldBindJSON` is a
  `Result<EventPayload, string>` argument.
- sarama's `NewAsyncProducer` is a connector function that may return an error.
- The send `select` in `PublishMessage` is a function that says which case fired:
  message enqueued, caller context done, or service context done.
- The producer's `Close` error is an `Option<string>` argument.
- The service is a value holding its configuration, the settings of its producer
  (`None` for a nil producer), and whether its context is cancelled.
- The retry loop's `time.Sleep` calls are returned as a trace of requested
  milliseconds.

`services.KafkaConfig` is a field-for-field copy of `config.KafkaConfig`. `main.go`
builds it at lines 104-113, so the model uses the one `Config.KafkaConfig`.

Behaviour of the code that the model keeps as written:

- The retry loop retries every error, including "shutting down" and marshalling
  failures. It never looks at the caller's cancellation, and its sleeps cannot be
  interrupted.
- There is no "not yet connected" service. `NewKafkaService` returns no service when
  initialisation fails, and `Close` keeps the producer reference. So `GetStats`
  still reports `active` after `Close`.
- The health check of a real service therefore never reaches the nil-producer branch.
  The model keeps that branch, because `HealthCheck` and `GetStats` test for it.

## Model

| member | source | states |
|---|---|---|
| `Models.EnrichEvent` | models/models.go:119-151 | Copies type, user, session, URL, event data and client info, and sets the event and request ids from the arguments. The timestamp is the parsed one when the text is non-empty and parses, otherwise `now`. Service info is the constant triple. Received and processed are both `now`, with 0 ms. |
| `Models.EnrichKeepsPayload` | models/models.go:130-139 | Projecting an enriched event back onto the payload fields, with the original timestamp text, gives back exactly the payload. |
| `Models.EnrichTimestampIsolated` | models/models.go:120-128 | The timestamp text affects only the enriched timestamp. Two payloads that differ only there enrich to events that differ only there. |
| `Models.NewEventResponse` | models/models.go:83-91 | Status `success`, the fixed message, and the given request id, event id and instant. |
| `Models.NewHealthResponse` | models/models.go:94-101 | Status `healthy`, service `ingestion-service`, version `1.0.0`. |
| `Models.NewErrorResponse` | models/models.go:104-116 | The error's code, message and request id are the three arguments. |
| `Models.GetEnvironment` | models/models.go:154-157 | Always `development`; nothing is read from the environment. |
| `Config.GetEnv` | config/config.go:105-110 | Returns the variable when it is set and non-empty, otherwise the fallback. |
| `Config.GetEnvEmptyIsUnset` | config/config.go:105-110 | Setting a variable to "" and removing it both yield the fallback. |
| `Config.GetEnvAsInt` | config/config.go:113-120 | Returns the `Atoi` value when the variable parses, and the fallback when it is unset, empty or not a 64-bit decimal integer. |
| `Config.GetEnvAsIntReadsDecimal` | config/config.go:113-120 | Any 64-bit integer written in decimal into the variable is read back exactly. |
| `Text.AtoiFormatInt` | config/config.go:115 | `Atoi` inverts decimal formatting on the whole `int64` range. |
| `Text.Atoi` | config/config.go:115 | An accepted text is an optional sign followed by one or more decimal digits and nothing else, and its value lies in the `int64` range. Conversely every such text whose value is in range is accepted, including `+5`, `007` and `-0`. |
| `Text.AtoiValue` | config/config.go:115 | An accepted text's value is the value of its digits, negated after a `-`. |
| `Config.GetEnvAsIntRejectsTrailingText` | config/config.go:113-120 | A value with a non-digit after its first character, such as `1x`, is not read up to the junk: the fallback is returned. |
| `Config.ParseBrokers` | config/config.go:123-128 | "" gives the empty list. Otherwise k commas give k+1 comma-free entries, and joining them with "," restores the input. |
| `Text.Split` | config/config.go:127 | `strings.Split` on a one-character separator: at least one piece, and no piece contains the separator. |
| `Text.Contains` | middleware/validation.go:16 | `strings.Contains`: the empty string is contained in every string and a string contains itself; a contained string is no longer than its container. |
| `Text.SplitJoin` | config/config.go:127 | Splitting the comma-join of one or more comma-free names gives the names back. |
| `Config.Validate` | config/config.go:66-102 | An accepted configuration has brokers, a topic, acks in {all, 1, 0}, a known codec, retries and linger at least 0, batch size and max message bytes above 0. An acks or compression error carries the offending value, which is outside its set. |
| `Config.ReadConfig` | config/config.go:36-51 | Each string field is its variable when that is set and non-empty, otherwise its default (port 9094, host 0.0.0.0, topic user-activity-events, acks all, snappy). Each integer field is its variable's `Atoi` value when that parses, otherwise its default (retries 3, batch 16384, linger 5, 1000000). An unset or empty KAFKA_BROKERS gives `[localhost:9092]`; otherwise the list holds comma-free names whose comma-join is the variable. |
| `Config.ValidateAcceptsIffAllPass` | config/config.go:66-102 | `validate` accepts exactly the configurations that pass all eight checks of a check table. Each check repeats one comparison of `validate`; the order of the table is stated separately. |
| `Config.ValidateReportsFirstFailure` | config/config.go:66-102 | A rejection is the error of the first failing check, in the order brokers, topic, acks, retries, batch size, linger, compression, max message bytes. Every earlier check passed. |
| `Config.ValidateNumericBounds` | config/config.go:80-99 | Retries and linger may be 0 but not -1. Batch size 0 and max message bytes 0 are rejected with their own errors. |
| `Config.ValidateAcksBeforeCompression` | config/config.go:75-95 | With non-empty brokers and topic, and both acks and compression invalid, the acks error is reported. |
| `Config.LoadConfig` | config/config.go:35-58 | Succeeds exactly when the values read from the environment, or their defaults, validate. The loaded config is exactly the one read. |
| `Config.LoadConfigReportsFirstFailure` | config/config.go:53-55 | A failed load carries the validation error of the configuration read. |
| `Config.LoadConfigDefaults` | config/config.go:38-51 | With an empty environment, loading succeeds with port 9094, host 0.0.0.0, broker localhost:9092, topic user-activity-events, acks all, retries 3, batch 16384, linger 5, snappy, 1000000. |
| `Config.GetServerAddress` | config/config.go:61-63 | The address is the host, then one colon, then the port. |
| `Config.LoadConfigAcceptsEmptyBrokerNames` | config/config.go:67-69 | Only the list length is checked: KAFKA_BROKERS="," loads, with two empty broker names. |
| `Services.AcksFromString` | services/kafka_service.go:70-79 | Any failure is the invalid-acks error for the given string. |
| `Services.AcksRoundTrip` | services/kafka_service.go:70-79 | The switch maps all, 1 and 0 to WaitForAll, WaitForLocal and NoResponse. It accepts exactly those spellings. |
| `Services.CompressionFromString` | services/kafka_service.go:90-103 | Any failure is the invalid-compression error for the given string. |
| `Services.CompressionRoundTrip` | services/kafka_service.go:90-103 | The switch maps none, gzip, snappy, lz4 and zstd to their codecs. It accepts exactly those spellings. |
| `Services.ValidationMatchesSwitches` | services/kafka_service.go:70-103 | Validation's acks and compression sets are exactly what the producer switches accept. A validated config never reaches their error branches. |
| `Services.InitializeProducer` | services/kafka_service.go:66-125 | Acks is mapped first, then compression, then the connector is asked. When both map, the result is exactly the mapped settings if the connector accepts them, and the producer-creation error carrying the connector's message if it refuses. |
| `Services.SettingsFor` | services/kafka_service.go:81-110 | The producer settings take acks, codec, retries, batch size, linger and max message bytes from the arguments, with a 100 ms retry backoff, idempotence on and one open request per connection. |
| `Services.AcksErrorFirst` | services/kafka_service.go:70-103 | With both fields invalid, initialisation reports the acks error. |
| `Services.NewKafkaService` | services/kafka_service.go:42-62 | Succeeds exactly when initialisation does, with a live, uncancelled service. Otherwise there is no service and the wrapped init error. |
| `Services.InvalidConfigNeverConnects` | services/kafka_service.go:52-55 | An invalid acks or compression value makes construction fail with the switch's error. |
| `Services.NewServiceIsHealthy` | services/kafka_service.go:206-219 | A freshly constructed service passes its health check. |
| `Services.PublishMessage` | services/kafka_service.go:128-163 | A cancelled service fails with "shutting down" before marshalling. A marshal failure is returned without sending. Otherwise the message for the configured topic, with the given key and the marshalled bytes, is offered. Each select case maps to its own result. |
| `Services.PublishEvent` | services/kafka_service.go:166-168 | A sent message is keyed by the event id, with the configured topic and the marshalled event. On an uncancelled service, publishing succeeds exactly when the event marshals and that message is enqueued. |
| `Services.HealthCheck` | services/kafka_service.go:206-219 | Healthy exactly when not cancelled and a producer exists. Cancellation is reported first, then a missing producer. |
| `Services.Close` | services/kafka_service.go:222-238 | Always cancels and keeps config and producer. It fails exactly when a producer exists and its close failed. |
| `Services.CloseStopsService` | services/kafka_service.go:222-238 | After Close, whatever the producer close returned, the health check and every publish fail as shutting down. Stats still say active. |
| `Services.GetStats` | services/kafka_service.go:241-256 | With no producer, only status not_initialized. Otherwise status active plus brokers, topic, compression, acks and retries from the config. |
| `Handlers.ValidateEvent` | handlers/event_handler.go:129-154 | Acceptance implies all four required fields are non-empty, and the timestamp is empty or parses. |
| `Handlers.ValidateEventFirstMissing` | handlers/event_handler.go:129-145 | The error names the first empty field in the order event_type, user_id, session_id, page_url. |
| `Handlers.ValidateEventTimestampRule` | handlers/event_handler.go:146-153 | With all fields present, the payload is accepted iff the timestamp is empty or parses. Otherwise the error is the RFC 3339 message. |
| `Handlers.ValidatedTimestampIsParsed` | handlers/event_handler.go:147-151 | For a validated payload, enrichment uses the parsed timestamp whenever the text is non-empty. It falls back to now only for an empty one. |
| `Handlers.PublishEventToKafka` | handlers/event_handler.go:157-188 | Makes 1 to 3 attempts and stops at the first success. Every earlier attempt failed. Failure means 3 attempts and the "after 3 attempts" message. The sleeps are k²·100 ms after failed attempt k<3, i.e. [100, 400] cut to attempts-1. |
| `Handlers.Attempt` | handlers/event_handler.go:167 | An attempt on a cancelled service fails as shutting down; the loop retries it anyway. On an uncancelled service, attempt k succeeds exactly when the event marshals and the k-th send enqueues its message. |
| `Handlers.BackoffMs` | handlers/event_handler.go:182 | The sleep after failed attempt k is a whole multiple of 100 ms, at least k·100 ms: 100 ms after the first and 400 ms after the second. |
| `Handlers.ParseAndValidateEvent` | handlers/event_handler.go:94-126 | A bind failure gives 400 INVALID_JSON. A validation failure gives 400 VALIDATION_ERROR with the validator's message. Otherwise the bound payload is returned. |
| `Handlers.TrackEvent` | handlers/event_handler.go:31-91 | A rejected request is answered by the parse/validate response, with no publish attempt. Otherwise 1 to 3 attempts are made. 500 means three attempts and KAFKA_ERROR with the request id. 200 carries the enriched event's id and the request id. A cancelled service always yields 500. For a valid request, 200 holds exactly when one of attempts 1 to 3 succeeds, and 500 exactly when all three fail. `attempts` is the number of attempts made: every attempt before it failed, and on 200 the last one passed. |
| `Handlers.HealthCheckHandler` | handlers/event_handler.go:191-208 | Always 200. The status is healthy iff the service health check passes, otherwise unhealthy. |
| `Handlers.ClosedServiceIsUnhealthy` | handlers/event_handler.go:195-207 | After Close the health endpoint reports unhealthy. |
| `Handlers.StatsHandler` | handlers/event_handler.go:211-220 | 200, with the service name, the version and the service's statistics. |
| `Middleware.ValidateRequest` | middleware/validation.go:11-42 | A request that continues is within 10 MiB. An abort is 400 or 413. |
| `Middleware.ContentTypeRule` | middleware/validation.go:14-25 | 400 INVALID_CONTENT_TYPE exactly for a POST whose Content-Type does not contain `application/json`. |
| `Middleware.SizeRule` | middleware/validation.go:29-38 | 413 REQUEST_TOO_LARGE exactly for a request that passes the content-type rule and declares more than 10·1024·1024 bytes. |
| `Middleware.PassThroughRule` | middleware/validation.go:11-42 | A request continues to the next handler exactly when it passes both rules. |
| `Middleware.NonPostSkipsContentType` | middleware/validation.go:14 | For non-POST methods, the Content-Type never changes the decision. |
| `Middleware.ValidationExamples` | middleware/validation.go:14-37 | A charset parameter passes, and exactly 10 MiB passes. An oversized POST with a bad Content-Type gets 400, not 413. |

## Left out

- The sarama async producer and the network are not modelled. Creating the producer,
  enqueueing a message and closing it are inputs.
- The `handleErrors`/`handleSuccesses` goroutines (services/kafka_service.go:171-203)
  only log, so they are left out.
- Go's concurrency is not modelled. The service state is read once per call, and a
  `Close` racing with a publish appears only as the send oracle reporting the
  service context done.
- `encoding/json`, `time.Parse` (RFC 3339), `time.Now` and `uuid.New` are foreign
  calls, passed in as arguments.
- The duplicate `time.Now()` calls in `EnrichEvent` and `NewEventResponse` are
  separate instant arguments.
- `ProcessingMs` is set from the wall clock after publishing
  (handlers/event_handler.go:74-75). It is never sent or returned, so it is left out.
- The message's `Timestamp: time.Now()` (services/kafka_service.go:146) is left out.
- `Services.PublishMessage`: it requires a cancelled service or a producer. With
  neither, Go would panic on the nil producer's `Input()`, and no constructed service
  is in that state.
- A second `Close` re-closes the sarama producer, whose behaviour is not visible, so
  double `Close` is not modelled.
- `time.Duration` overflow in `LingerMs * time.Millisecond` is not modelled. The model
  keeps durations in milliseconds as unbounded integers.
- JSON numbers in `event_data` are exact reals. `encoding/json` decodes them to
  `float64` (handlers/event_handler.go:98), so rounding of long or large numbers is
  not modelled.
- A parsed timestamp keeps its UTC offset as an `Instant` field, but how `json.Marshal`
  prints an instant is part of the marshal argument, not of this model.
- The connector may refuse any settings. sarama's own checks of a producer
  configuration, such as those on an idempotent producer, are not part of this model.
- Go's nil `EventData` map (field absent from the JSON) is not distinguished from an
  empty one. It is copied through unchanged in both cases.
- Gin and zap plumbing, logging, `c.JSON` and context values are left out. Responses
  are returned values.
- main.go is process plumbing and is not part of this model: signals, the HTTP server
  goroutine, the 30 s shutdown timeout, and logger setup.
- router/router.go, middleware/cors.go and middleware/logging.go are not part of this
  model. They hold route wiring, constant headers and log formatting.

=== FILE: config.dfy ===
/**
 Configuration loading (config/config.go): every setting is read from the
 process environment with a fallback, then checked by a fixed-order list of
 validations. The environment is passed in as a map; a variable that is not in
 the map is unset, which `os.Getenv` reports as the empty string.
 */
module Config {
  import opened Wrappers
  import Text

  type Env = map<string, string>

  datatype ServerConfig = ServerConfig(port: string, host: string)

  /** Producer settings; `int` fields are Go `int`s (64-bit). */
  datatype KafkaConfig = KafkaConfig(
    brokers: seq<string>,
    topic: string,
    acks: string,
    retries: int,
    batchSize: int,
    lingerMs: int,
    compression: string,
    maxMessageBytes: int)

  datatype Config = Config(server: ServerConfig, kafka: KafkaConfig)

  /** The eight validation failures, one per check. */
  datatype ValidationError =
    | NoBrokers
    | NoTopic
    | InvalidAcks(acks: string)
    | NegativeRetries
    | NonPositiveBatchSize
    | NegativeLinger
    | InvalidCompression(compression: string)
    | NonPositiveMaxMessageBytes
  {
    function Message(): string
    {
      match this
      case NoBrokers => "at least one Kafka broker must be specified"
      case NoTopic => "Kafka topic must be specified"
      case InvalidAcks(a) => "invalid Kafka acks value: " + a
      case NegativeRetries => "Kafka retries must be non-negative"
      case NonPositiveBatchSize => "Kafka batch size must be positive"
      case NegativeLinger => "Kafka linger ms must be non-negative"
      case InvalidCompression(c) => "invalid Kafka compression: " + c
      case NonPositiveMaxMessageBytes => "Kafka max message bytes must be positive"
    }
  }

  /** The error `LoadConfig` returns: the validation failure, wrapped. */
  datatype LoadError = ValidationFailed(cause: ValidationError)
  {
    function Message(): string
    {
      "configuration validation failed: " + cause.Message()
    }
  }

  // ---------------------------------------------------------------------------
  // Environment lookup

  /** The raw `os.Getenv` value: unset reads as empty. */
  function Lookup(env: Env, key: string): string
  {
    if key in env then env[key] else ""
  }

  /** `getEnv`: the variable's value when it is non-empty, otherwise `fallback`. */
  function GetEnv(env: Env, key: string, fallback: string): (r: string)
    ensures key in env && env[key] != "" ==> r == env[key]
    ensures key !in env || env[key] == "" ==> r == fallback
  {
    var value := Lookup(env, key);
    if value != "" then value else fallback
  }

  /** An empty variable is indistinguishable from an unset one. */
  lemma GetEnvEmptyIsUnset(env: Env, key: string, fallback: string)
    ensures GetEnv(env[key := ""], key, fallback) == GetEnv(env - {key}, key, fallback) == fallback
  {
  }

  /**
   `getEnvAsInt`: the variable parsed by `strconv.Atoi` when it is set and is
   a decimal integer in range, otherwise `fallback`.
   */
  function GetEnvAsInt(env: Env, key: string, fallback: int): (r: int)
    ensures key in env && Text.Atoi(env[key]).Some? ==> r == Text.Atoi(env[key]).value
    ensures key !in env || Text.Atoi(env[key]).None? ==> r == fallback
  {
    var value := Lookup(env, key);
    if value != "" then
      match Text.Atoi(value)
      case Some(n) => n
      case None => fallback
    else fallback
  }

  /** Any `int64` written in decimal into the variable is read back exactly. */
  lemma GetEnvAsIntReadsDecimal(env: Env, key: string, n: int, fallback: int)
    requires Text.MinInt64 <= n <= Text.MaxInt64
    ensures GetEnvAsInt(env[key := Text.FormatInt(n)], key, fallback) == n
  {
    Text.AtoiFormatInt(n);
  }

  /**
   Text that is not a whole decimal integer is rejected, not read up to the
   first non-digit: `KAFKA_RETRIES=1x` leaves the fallback.
   */
  lemma GetEnvAsIntRejectsTrailingText(env: Env, key: string, fallback: int, i: nat)
    requires key in env && 1 <= i < |env[key]| && !Text.IsDigit(env[key][i])
    ensures GetEnvAsInt(env, key, fallback) == fallback
  {
  }

  /** `parseBrokers`: the empty string is no broker, otherwise a plain comma split. */
  function ParseBrokers(brokers: string): (r: seq<string>)
    ensures brokers == "" <==> r == []
    ensures brokers != "" ==> |r| == Text.Count(brokers, ',') + 1
    ensures brokers != "" ==> Text.Join(r, ',') == brokers
    ensures forall i :: 0 <= i < |r| ==> ',' !in r[i]
  {
    if brokers == "" then []
    else
      Text.SplitCount(brokers, ',');
      Text.JoinSplit(brokers, ',');
      Text.Split(brokers, ',')
  }

  // ---------------------------------------------------------------------------
  // Validation

  /**
   `validate`: the first failing check, in the order brokers, topic, acks,
   retries, batch size, linger, compression, max message bytes. The source's
   lookup maps of valid names (absent keys read as false) are the sets below.
   */
  function Validate(k: KafkaConfig): (r: Option<ValidationError>)
    ensures r.None? ==>
              k.brokers != [] && k.topic != "" && k.acks in AcksNames && k.compression in CompressionNames
    ensures r.None? ==>
              k.retries >= 0 && k.batchSize > 0 && k.lingerMs >= 0 && k.maxMessageBytes > 0
    ensures r.Some? && r.value.InvalidAcks? ==> r.value.acks == k.acks && k.acks !in AcksNames
    ensures r.Some? && r.value.InvalidCompression? ==>
              r.value.compression == k.compression && k.compression !in CompressionNames
  {
    if |k.brokers| == 0 then Some(NoBrokers)
    else if k.topic == "" then Some(NoTopic)
    else if k.acks !in AcksNames then Some(InvalidAcks(k.acks))
    else if k.retries < 0 then Some(NegativeRetries)
    else if k.batchSize <= 0 then Some(NonPositiveBatchSize)
    else if k.lingerMs < 0 then Some(NegativeLinger)
    else if k.compression !in CompressionNames then Some(InvalidCompression(k.compression))
    else if k.maxMessageBytes <= 0 then Some(NonPositiveMaxMessageBytes)
    else None
  }

  /** The acknowledgment levels the configuration admits. */
  const AcksNames: set<string> := {"all", "1", "0"}

  /** The compression names the configuration admits. */
  const CompressionNames: set<string> := {"none", "gzip", "snappy", "lz4", "zstd"}

  /**
   The checks, one predicate each. Each predicate repeats one comparison of
   `Validate`; what the table adds is the order, `CheckOrder`, stated apart
   from the if-chain.
   */
  datatype Check = BrokersCheck | TopicCheck | AcksCheck | RetriesCheck
                 | BatchSizeCheck | LingerCheck | CompressionCheck | MaxMessageBytesCheck

  const CheckOrder: seq<Check> :=
    [BrokersCheck, TopicCheck, AcksCheck, RetriesCheck,
     BatchSizeCheck, LingerCheck, CompressionCheck, MaxMessageBytesCheck]

  predicate Passes(k: KafkaConfig, c: Check)
  {
    match c
    case BrokersCheck => k.brokers != []
    case TopicCheck => k.topic != ""
    case AcksCheck => k.acks in AcksNames
    case RetriesCheck => k.retries >= 0
    case BatchSizeCheck => k.batchSize > 0
    case LingerCheck => k.lingerMs >= 0
    case CompressionCheck => k.compression in CompressionNames
    case MaxMessageBytesCheck => k.maxMessageBytes > 0
  }

  /** The error a failing check reports. */
  function FailureOf(k: KafkaConfig, c: Check): ValidationError
  {
    match c
    case BrokersCheck => NoBrokers
    case TopicCheck => NoTopic
    case AcksCheck => InvalidAcks(k.acks)
    case RetriesCheck => NegativeRetries
    case BatchSizeCheck => NonPositiveBatchSize
    case LingerCheck => NegativeLinger
    case CompressionCheck => InvalidCompression(k.compression)
    case MaxMessageBytesCheck => NonPositiveMaxMessageBytes
  }

  /** `Validate` accepts exactly the configurations that pass every check. */
  lemma ValidateAcceptsIffAllPass(k: KafkaConfig)
    ensures Validate(k).None? <==> forall i :: 0 <= i < |CheckOrder| ==> Passes(k, CheckOrder[i])
  {
    if Validate(k).Some? {
      ValidateReportsFirstFailure(k);
    }
  }

  /** A rejection names the first failing check of the table; every earlier one passed. */
  lemma ValidateReportsFirstFailure(k: KafkaConfig)
    requires Validate(k).Some?
    ensures exists i :: 0 <= i < |CheckOrder| && !Passes(k, CheckOrder[i])
              && (forall j :: 0 <= j < i ==> Passes(k, CheckOrder[j]))
              && Validate(k).value == FailureOf(k, CheckOrder[i])
  {
    var i :=
      if |k.brokers| == 0 then 0
      else if k.topic == "" then 1
      else if k.acks !in AcksNames then 2
      else if k.retries < 0 then 3
      else if k.batchSize <= 0 then 4
      else if k.lingerMs < 0 then 5
      else if k.compression !in CompressionNames then 6
      else 7;
    assert !Passes(k, CheckOrder[i]) && Validate(k).value == FailureOf(k, CheckOrder[i]);
    assert forall j :: 0 <= j < i ==> Passes(k, CheckOrder[j]);
  }

  /**
   Retries and linger may be zero; batch size and max message bytes must be
   strictly positive.
   */
  lemma ValidateNumericBounds(k: KafkaConfig)
    requires Validate(k).None?
    ensures Validate(k.(retries := 0)).None?
    ensures Validate(k.(lingerMs := 0)).None?
    ensures Validate(k.(batchSize := 0)) == Some(NonPositiveBatchSize)
    ensures Validate(k.(maxMessageBytes := 0)) == Some(NonPositiveMaxMessageBytes)
    ensures Validate(k.(retries := -1)) == Some(NegativeRetries)
    ensures Validate(k.(lingerMs := -1)) == Some(NegativeLinger)
  {
  }

  /** With both acks and compression wrong, the acks error is the one reported. */
  lemma ValidateAcksBeforeCompression(k: KafkaConfig)
    requires k.brokers != [] && k.topic != ""
    requires k.acks !in AcksNames && k.compression !in CompressionNames
    ensures Validate(k) == Some(InvalidAcks(k.acks))
  {
  }

  // ---------------------------------------------------------------------------
  // Loading

  /** The configuration read from `env`, before validation. */
  function ReadConfig(env: Env): (c: Config)
    ensures "PORT" in env && env["PORT"] != "" ==> c.server.port == env["PORT"]
    ensures "PORT" !in env || env["PORT"] == "" ==> c.server.port == "9094"
    ensures "HOST" in env && env["HOST"] != "" ==> c.server.host == env["HOST"]
    ensures "HOST" !in env || env["HOST"] == "" ==> c.server.host == "0.0.0.0"
    ensures "KAFKA_TOPIC" in env && env["KAFKA_TOPIC"] != "" ==> c.kafka.topic == env["KAFKA_TOPIC"]
    ensures "KAFKA_TOPIC" !in env || env["KAFKA_TOPIC"] == "" ==>
              c.kafka.topic == "user-activity-events"
    ensures "KAFKA_ACKS" in env && env["KAFKA_ACKS"] != "" ==> c.kafka.acks == env["KAFKA_ACKS"]
    ensures "KAFKA_ACKS" !in env || env["KAFKA_ACKS"] == "" ==> c.kafka.acks == "all"
    ensures "KAFKA_COMPRESSION" in env && env["KAFKA_COMPRESSION"] != "" ==>
              c.kafka.compression == env["KAFKA_COMPRESSION"]
    ensures "KAFKA_COMPRESSION" !in env || env["KAFKA_COMPRESSION"] == "" ==>
              c.kafka.compression == "snappy"
    ensures "KAFKA_RETRIES" in env && Text.Atoi(env["KAFKA_RETRIES"]).Some? ==>
              c.kafka.retries == Text.Atoi(env["KAFKA_RETRIES"]).value
    ensures "KAFKA_RETRIES" !in env || Text.Atoi(env["KAFKA_RETRIES"]).None? ==>
              c.kafka.retries == 3
    ensures "KAFKA_BATCH_SIZE" in env && Text.Atoi(env["KAFKA_BATCH_SIZE"]).Some? ==>
              c.kafka.batchSize == Text.Atoi(env["KAFKA_BATCH_SIZE"]).value
    ensures "KAFKA_BATCH_SIZE" !in env || Text.Atoi(env["KAFKA_BATCH_SIZE"]).None? ==>
              c.kafka.batchSize == 16384
    ensures "KAFKA_LINGER_MS" in env && Text.Atoi(env["KAFKA_LINGER_MS"]).Some? ==>
              c.kafka.lingerMs == Text.Atoi(env["KAFKA_LINGER_MS"]).value
    ensures "KAFKA_LINGER_MS" !in env || Text.Atoi(env["KAFKA_LINGER_MS"]).None? ==>
              c.kafka.lingerMs == 5
    ensures "KAFKA_MAX_MESSAGE_BYTES" in env && Text.Atoi(env["KAFKA_MAX_MESSAGE_BYTES"]).Some? ==>
              c.kafka.maxMessageBytes == Text.Atoi(env["KAFKA_MAX_MESSAGE_BYTES"]).value
    ensures "KAFKA_MAX_MESSAGE_BYTES" !in env || Text.Atoi(env["KAFKA_MAX_MESSAGE_BYTES"]).None? ==>
              c.kafka.maxMessageBytes == 1000000
    ensures "KAFKA_BROKERS" !in env || env["KAFKA_BROKERS"] == "" ==>
              c.kafka.brokers == ["localhost:9092"]
    ensures "KAFKA_BROKERS" in env && env["KAFKA_BROKERS"] != "" ==>
              Text.Join(c.kafka.brokers, ',') == env["KAFKA_BROKERS"] &&
              forall i :: 0 <= i < |c.kafka.brokers| ==> ',' !in c.kafka.brokers[i]
  {
    DefaultBrokerParses();
    Config(
      ServerConfig(
        GetEnv(env, "PORT", "9094"),
        GetEnv(env, "HOST", "0.0.0.0")),
      KafkaConfig(
        ParseBrokers(GetEnv(env, "KAFKA_BROKERS", "localhost:9092")),
        GetEnv(env, "KAFKA_TOPIC", "user-activity-events"),
        GetEnv(env, "KAFKA_ACKS", "all"),
        GetEnvAsInt(env, "KAFKA_RETRIES", 3),
        GetEnvAsInt(env, "KAFKA_BATCH_SIZE", 16384),
        GetEnvAsInt(env, "KAFKA_LINGER_MS", 5),
        GetEnv(env, "KAFKA_COMPRESSION", "snappy"),
        GetEnvAsInt(env, "KAFKA_MAX_MESSAGE_BYTES", 1000000)))
  }

  /** `LoadConfig`: the configuration read from `env` if it validates. */
  function LoadConfig(env: Env): (r: Result<Config, LoadError>)
    ensures r.Success? <==> Validate(ReadConfig(env).kafka).None?
    ensures r.Success? ==> r.value == ReadConfig(env)
  {
    var config := ReadConfig(env);
    match Validate(config.kafka)
    case Some(e) => Failure(ValidationFailed(e))
    case None => Success(config)
  }

  /** A failed load carries the first validation error of the configuration read. */
  lemma LoadConfigReportsFirstFailure(env: Env)
    requires LoadConfig(env).Failure?
    ensures Validate(ReadConfig(env).kafka) == Some(LoadConfig(env).error.cause)
  {
  }

  /** `GetServerAddress`: host and port joined by a colon. */
  function GetServerAddress(c: Config): (r: string)
    ensures |r| == |c.server.host| + 1 + |c.server.port|
    ensures r[..|c.server.host|] == c.server.host && r[|c.server.host|] == ':'
    ensures r[|c.server.host| + 1..] == c.server.port
  {
    c.server.host + ":" + c.server.port
  }

  const DefaultConfig: Config :=
    Config(
      ServerConfig("9094", "0.0.0.0"),
      KafkaConfig(["localhost:9092"], "user-activity-events", "all", 3, 16384, 5, "snappy", 1000000))

  /** The default broker string is one broker. */
  lemma DefaultBrokerParses()
    ensures ParseBrokers("localhost:9092") == ["localhost:9092"]
  {
    Text.SplitJoin(["localhost:9092"], ',');
  }

  lemma ReadConfigDefaults()
    ensures ReadConfig(map[]) == DefaultConfig
  {
  }

  /** With nothing set, loading succeeds with the documented defaults. */
  lemma LoadConfigDefaults()
    ensures LoadConfig(map[]) == Success(DefaultConfig)
  {
    ReadConfigDefaults();
    DefaultsValidate();
  }

  /** The default listening address. */
  lemma DefaultServerAddress()
    ensures GetServerAddress(DefaultConfig) == "0.0.0.0:9094"
  {
  }

  lemma DefaultsValidate()
    ensures Validate(DefaultConfig.kafka).None?
  {
  }

  /**
   Only the length of the broker list is checked: a value of "," yields two
   empty broker addresses and still validates.
   */
  lemma LoadConfigAcceptsEmptyBrokerNames()
    ensures LoadConfig(map["KAFKA_BROKERS" := ","]).Success?
    ensures LoadConfig(map["KAFKA_BROKERS" := ","]).value.kafka.brokers == ["", ""]
  {
  }
}

=== FILE: handlers.dfy ===
/**
 The decision logic of handlers/event_handler.go: required-field validation,
 the bounded retry loop around the Kafka publish, and the mapping of outcomes
 to HTTP responses. JSON binding, the clock and the UUID generator are
 supplied as arguments; the sleeps of the retry loop are returned as a trace
 of requested durations.
 */
module Handlers {
  import opened Wrappers
  import opened Models
  import Text
  import Services

  /** An HTTP response: status code and JSON body. */
  datatype Body =
    | EventBody(event: EventResponse)
    | ErrorBody(err: ErrorResponse)
    | HealthBody(health: HealthResponse)
    | StatsBody(stats: StatsReport)

  datatype HttpResponse = HttpResponse(status: int, body: Body)

  /** The body of the stats endpoint. */
  datatype StatsReport = StatsReport(
    service: string, version: string, kafka: map<string, Services.StatValue>, timestamp: Instant)

  const StatusOK: int := 200
  const StatusBadRequest: int := 400
  const StatusInternalServerError: int := 500

  // ---------------------------------------------------------------------------
  // Validation

  /** The required payload fields, in the order they are checked. */
  const RequiredFields: seq<string> := ["event_type", "user_id", "session_id", "page_url"]

  /** The value of the `i`-th required field. */
  function RequiredValue(p: EventPayload, i: nat): string
    requires i < |RequiredFields|
  {
    if i == 0 then p.eventType
    else if i == 1 then p.userID
    else if i == 2 then p.sessionID
    else p.pageURL
  }

  const InvalidTimestampMessage: string := "invalid timestamp format, expected RFC3339"

  /**
   `validateEvent`: the first empty required field is reported; then a
   non-empty timestamp must parse as RFC 3339.
   */
  function ValidateEvent(p: EventPayload, parseTime: TimeParser): (r: Outcome<string>)
    ensures r.Pass? ==> p.eventType != "" && p.userID != "" && p.sessionID != "" && p.pageURL != ""
    ensures r.Pass? ==> p.timestamp == "" || parseTime(p.timestamp).Some?
  {
    if p.eventType == "" then Fail("event_type is required")
    else if p.userID == "" then Fail("user_id is required")
    else if p.sessionID == "" then Fail("session_id is required")
    else if p.pageURL == "" then Fail("page_url is required")
    else if p.timestamp != "" && parseTime(p.timestamp).None? then Fail(InvalidTimestampMessage)
    else Pass
  }

  /**
   Against the field table: the reported error names the first empty field,
   and with all fields present only the timestamp decides.
   */
  lemma ValidateEventFirstMissing(p: EventPayload, parseTime: TimeParser, i: nat)
    requires i < |RequiredFields| && RequiredValue(p, i) == ""
    requires forall j :: 0 <= j < i ==> RequiredValue(p, j) != ""
    ensures ValidateEvent(p, parseTime) == Fail(RequiredFields[i] + " is required")
  {
    if i > 0 { assert RequiredValue(p, 0) != ""; }
    if i > 1 { assert RequiredValue(p, 1) != ""; }
    if i > 2 { assert RequiredValue(p, 2) != ""; }
    if i == 0 {
      assert RequiredFields[0] + " is required" == "event_type is required";
    } else if i == 1 {
      assert RequiredFields[1] + " is required" == "user_id is required";
    } else if i == 2 {
      assert RequiredFields[2] + " is required" == "session_id is required";
    } else {
      assert RequiredFields[3] + " is required" == "page_url is required";
    }
  }

  /** With every required field present, the payload is accepted iff its timestamp is empty or parses. */
  lemma ValidateEventTimestampRule(p: EventPayload, parseTime: TimeParser)
    requires forall j :: 0 <= j < |RequiredFields| ==> RequiredValue(p, j) != ""
    ensures ValidateEvent(p, parseTime).Pass? <==> p.timestamp == "" || parseTime(p.timestamp).Some?
    ensures ValidateEvent(p, parseTime).Fail? ==> ValidateEvent(p, parseTime).error == InvalidTimestampMessage
  {
    assert RequiredValue(p, 0) != "" && RequiredValue(p, 1) != "";
    assert RequiredValue(p, 2) != "" && RequiredValue(p, 3) != "";
  }

  /**
   Validation and enrichment share the parser, so for an accepted payload the
   enriched timestamp falls back to `now` only when the timestamp was empty.
   */
  lemma ValidatedTimestampIsParsed(p: EventPayload, requestID: string, now: Instant, eventID: string,
                                   parseTime: TimeParser)
    requires ValidateEvent(p, parseTime).Pass?
    ensures p.timestamp != "" ==>
              parseTime(p.timestamp).Some? &&
              EnrichEvent(p, requestID, now, eventID, parseTime).timestamp == parseTime(p.timestamp).value
    ensures p.timestamp == "" ==> EnrichEvent(p, requestID, now, eventID, parseTime).timestamp == now
  {
  }

  // ---------------------------------------------------------------------------
  // Publishing with retries

  const MaxRetries: nat := 3

  /** The pause after failed attempt `attempt`: quadratic in the attempt number. */
  function BackoffMs(attempt: nat): (ms: nat)
    ensures attempt == 1 ==> ms == 100
    ensures attempt == 2 ==> ms == 400
    ensures ms % 100 == 0 && ms >= 100 * attempt
  {
    attempt * attempt * 100
  }

  /** What the retry loop did: its result, how many attempts it made, and the sleeps it requested. */
  datatype PublishReport = PublishReport(outcome: Outcome<string>, attempts: nat, sleepsMs: seq<nat>)

  /**
   `publishEventToKafka`: up to three attempts; the first success returns at
   once; after failed attempt `k < 3` it sleeps `k * k * 100` ms. Every error is
   retried, whatever its kind. `publish(k)` is the outcome of attempt `k`.
   */
  method PublishEventToKafka(publish: nat -> Outcome<Services.ServiceError>) returns (report: PublishReport)
    ensures 1 <= report.attempts <= MaxRetries
    ensures forall k :: 1 <= k < report.attempts ==> publish(k).Fail?
    ensures report.outcome.Pass? <==> publish(report.attempts).Pass?
    ensures report.outcome.Fail? ==> report.attempts == MaxRetries
    ensures report.outcome.Fail? ==> report.outcome.error == "failed to publish event to Kafka after 3 attempts"
    ensures |report.sleepsMs| == report.attempts - 1
    ensures forall i :: 0 <= i < |report.sleepsMs| ==> report.sleepsMs[i] == BackoffMs(i + 1)
    ensures report.sleepsMs == [100, 400][..report.attempts - 1]
  {
    var sleeps: seq<nat> := [];
    var attempt: nat := 1;
    while attempt <= MaxRetries
      invariant 1 <= attempt <= MaxRetries + 1
      invariant |sleeps| == if attempt <= MaxRetries then attempt - 1 else MaxRetries - 1
      invariant forall i :: 0 <= i < |sleeps| ==> sleeps[i] == BackoffMs(i + 1)
      invariant forall k :: 1 <= k < attempt ==> publish(k).Fail?
    {
      if publish(attempt).Pass? {
        report := PublishReport(Pass, attempt, sleeps);
        assert sleeps == [100, 400][..attempt - 1];
        return;
      }
      if attempt < MaxRetries {
        sleeps := sleeps + [BackoffMs(attempt)];
      }
      attempt := attempt + 1;
    }
    var message := "failed to publish event to Kafka after " + Text.FormatInt(MaxRetries) + " attempts";
    report := PublishReport(Fail(message), MaxRetries, sleeps);
    assert sleeps == [100, 400];
  }

  /** One publish attempt of the enriched event, keyed by its identifier. */
  function Attempt(ks: Services.KafkaService, event: EnrichedEvent, marshal: Services.Marshaller<EnrichedEvent>,
                   send: (nat, Services.ProducerMessage) -> Services.SendOutcome, k: nat): (r: Outcome<Services.ServiceError>)
    requires ks.cancelled || ks.producer.Some?
    ensures ks.cancelled ==> r == Fail(Services.ShuttingDown)
    ensures !ks.cancelled ==>
              (r.Pass? <==> marshal(event).Success? &&
                            send(k, Services.ProducerMessage(ks.config.topic, event.eventID, marshal(event).value))
                              == Services.Enqueued)
  {
    match Services.PublishEvent(ks, event, event.eventID, marshal, m => send(k, m))
    case Success(_) => Pass
    case Failure(e) => Fail(e)
  }

  // ---------------------------------------------------------------------------
  // Request handlers

  /** `parseAndValidateEvent`: a bind failure or a validation failure becomes a 400 response. */
  function ParseAndValidateEvent(bind: Result<EventPayload, string>, requestID: string, parseTime: TimeParser)
    : (r: Result<EventPayload, HttpResponse>)
    ensures bind.Failure? ==>
              r == Failure(HttpResponse(StatusBadRequest, ErrorBody(NewErrorResponse("INVALID_JSON", "Invalid JSON payload", requestID))))
    ensures bind.Success? && ValidateEvent(bind.value, parseTime).Fail? ==>
              r == Failure(HttpResponse(StatusBadRequest, ErrorBody(NewErrorResponse(
                     "VALIDATION_ERROR", ValidateEvent(bind.value, parseTime).error, requestID))))
    ensures r.Success? <==> bind.Success? && ValidateEvent(bind.value, parseTime).Pass?
    ensures r.Success? ==> r.value == bind.value
  {
    match bind
    case Failure(_) =>
      Failure(HttpResponse(StatusBadRequest, ErrorBody(NewErrorResponse("INVALID_JSON", "Invalid JSON payload", requestID))))
    case Success(payload) =>
      match ValidateEvent(payload, parseTime)
      case Fail(message) =>
        Failure(HttpResponse(StatusBadRequest, ErrorBody(NewErrorResponse("VALIDATION_ERROR", message, requestID))))
      case Pass => Success(payload)
  }

  /**
   `TrackEvent`: parse and validate, enrich, publish with retries, answer.
   `attempts` is the number of publish attempts made (0 when the request was
   rejected before publishing). `eventID` is the enriched event's fresh
   identifier and `responseID` the one `NewEventResponse` draws and the handler
   overwrites.
   */
  method TrackEvent(bind: Result<EventPayload, string>, requestID: string, receivedAt: Instant,
                    respondedAt: Instant, eventID: string, responseID: string, parseTime: TimeParser,
                    ks: Services.KafkaService, marshal: Services.Marshaller<EnrichedEvent>,
                    send: (nat, Services.ProducerMessage) -> Services.SendOutcome)
    returns (response: HttpResponse, attempts: nat)
    requires ks.cancelled || ks.producer.Some?
    ensures ParseAndValidateEvent(bind, requestID, parseTime).Failure? ==>
              response == ParseAndValidateEvent(bind, requestID, parseTime).error && attempts == 0
    ensures ParseAndValidateEvent(bind, requestID, parseTime).Success? ==> 1 <= attempts <= MaxRetries
    ensures response.status == StatusInternalServerError ==>
              attempts == MaxRetries &&
              response.body == ErrorBody(NewErrorResponse("KAFKA_ERROR", "Failed to process event", requestID))
    ensures response.status == StatusOK ==>
              response.body.EventBody? && response.body.event.status == "success" &&
              response.body.event.eventID == eventID && response.body.event.requestID == requestID
    ensures response.status in {StatusOK, StatusBadRequest, StatusInternalServerError}
    ensures ks.cancelled && ParseAndValidateEvent(bind, requestID, parseTime).Success? ==>
              response.status == StatusInternalServerError
    ensures ParseAndValidateEvent(bind, requestID, parseTime).Success? ==>
              var enriched := EnrichEvent(bind.value, requestID, receivedAt, eventID, parseTime);
              (response.status == StatusOK <==>
                 exists k :: 1 <= k <= MaxRetries && Attempt(ks, enriched, marshal, send, k).Pass?) &&
              (response.status == StatusInternalServerError <==>
                 forall k :: 1 <= k <= MaxRetries ==> Attempt(ks, enriched, marshal, send, k).Fail?) &&
              (forall k :: 1 <= k < attempts ==> Attempt(ks, enriched, marshal, send, k).Fail?) &&
              (response.status == StatusOK ==> Attempt(ks, enriched, marshal, send, attempts).Pass?)
  {
    match ParseAndValidateEvent(bind, requestID, parseTime)
    case Failure(rejection) =>
      return rejection, 0;
    case Success(payload) =>
      var enriched := EnrichEvent(payload, requestID, receivedAt, eventID, parseTime);
      var publish := (k: nat) => Attempt(ks, enriched, marshal, send, k);
      assert forall k: nat :: publish(k) == Attempt(ks, enriched, marshal, send, k);
      var report := PublishEventToKafka(publish);
      attempts := report.attempts;
      assert forall k :: 1 <= k < attempts ==> Attempt(ks, enriched, marshal, send, k).Fail?;
      if report.outcome.Fail? {
        assert forall k :: 1 <= k <= MaxRetries ==> publish(k).Fail?;
        response := HttpResponse(StatusInternalServerError,
                                 ErrorBody(NewErrorResponse("KAFKA_ERROR", "Failed to process event", requestID)));
      } else {
        assert Attempt(ks, enriched, marshal, send, report.attempts).Pass?;
        var ack := NewEventResponse(requestID, responseID, respondedAt).(eventID := enriched.eventID);
        response := HttpResponse(StatusOK, EventBody(ack));
      }
  }

  /** `HealthCheck` handler: always 200, healthy exactly when the service is. */
  function HealthCheckHandler(ks: Services.KafkaService, now: Instant): (r: HttpResponse)
    ensures r.status == StatusOK && r.body.HealthBody?
    ensures r.body.health.status == (if Services.HealthCheck(ks).Pass? then "healthy" else "unhealthy")
    ensures r.body.health.service == ServiceName && r.body.health.version == ServiceVersion
  {
    var status := if Services.HealthCheck(ks).Pass? then "healthy" else "unhealthy";
    HttpResponse(StatusOK, HealthBody(NewHealthResponse(now).(status := status)))
  }

  /** Once the service is closed the health endpoint reports unhealthy, still with 200. */
  lemma ClosedServiceIsUnhealthy(ks: Services.KafkaService, closeError: Option<string>, now: Instant)
    ensures HealthCheckHandler(Services.Close(ks, closeError).0, now).body.health.status == "unhealthy"
  {
  }

  /** `GetStats` handler: service name and version around the producer statistics. */
  function StatsHandler(ks: Services.KafkaService, now: Instant): (r: HttpResponse)
    ensures r.status == StatusOK && r.body.StatsBody?
    ensures r.body.stats.service == ServiceName && r.body.stats.version == ServiceVersion
    ensures r.body.stats.kafka == Services.GetStats(ks) && "status" in r.body.stats.kafka
  {
    HttpResponse(StatusOK, StatsBody(StatsReport(ServiceName, ServiceVersion, Services.GetStats(ks), now)))
  }
}

=== FILE: middleware.dfy ===
/**
 The accept/reject rule of middleware/validation.go, applied to every request
 before its handler: a POST must declare a JSON content type, and no request
 may declare a body larger than 10 MiB.
 */
module Middleware {
  import Text

  /** The request attributes the middleware reads; a missing header is "". */
  datatype Request = Request(httpMethod: string, contentType: string, contentLength: int)

  /** Continue to the next handler, or abort with a status and an error code. */
  datatype Decision = Next | Abort(status: int, code: string, message: string)

  const MaxContentLength: int := 10 * 1024 * 1024

  const JsonMediaType: string := "application/json"

  /** `ValidationMiddleware`: the content-type check, then the size check. */
  function ValidateRequest(req: Request): (d: Decision)
    ensures d.Next? ==> req.contentLength <= MaxContentLength
    ensures d.Abort? ==> d.status in {400, 413}
  {
    if req.httpMethod == "POST" && !Text.Contains(req.contentType, JsonMediaType) then
      Abort(400, "INVALID_CONTENT_TYPE", "Content-Type must be application/json")
    else if req.contentLength > MaxContentLength then
      Abort(413, "REQUEST_TOO_LARGE", "Request body too large")
    else Next
  }

  /** The content type declares JSON somewhere in its text. */
  ghost predicate DeclaresJson(contentType: string)
  {
    exists i :: Text.OccursAt(contentType, JsonMediaType, i)
  }

  /** A request is rejected with 400 exactly when it is a POST not declaring JSON. */
  lemma ContentTypeRule(req: Request)
    ensures ValidateRequest(req).Abort? && ValidateRequest(req).status == 400 <==>
              req.httpMethod == "POST" && !DeclaresJson(req.contentType)
    ensures ValidateRequest(req).Abort? && ValidateRequest(req).status == 400 ==>
              ValidateRequest(req).code == "INVALID_CONTENT_TYPE"
  {
    Text.ContainsIffOccurs(req.contentType, JsonMediaType);
  }

  /** A request is rejected with 413 exactly when it passes the content-type rule but is over 10 MiB. */
  lemma SizeRule(req: Request)
    ensures ValidateRequest(req).Abort? && ValidateRequest(req).status == 413 <==>
              (req.httpMethod != "POST" || DeclaresJson(req.contentType)) && req.contentLength > MaxContentLength
    ensures ValidateRequest(req).Abort? && ValidateRequest(req).status == 413 ==>
              ValidateRequest(req).code == "REQUEST_TOO_LARGE"
  {
    Text.ContainsIffOccurs(req.contentType, JsonMediaType);
  }

  /** A request continues exactly when it passes both rules. */
  lemma PassThroughRule(req: Request)
    ensures ValidateRequest(req) == Next <==>
              (req.httpMethod != "POST" || DeclaresJson(req.contentType)) && req.contentLength <= MaxContentLength
  {
    Text.ContainsIffOccurs(req.contentType, JsonMediaType);
  }

  /** Methods other than POST are never checked for their content type. */
  lemma NonPostSkipsContentType(req: Request, otherType: string)
    requires req.httpMethod != "POST"
    ensures ValidateRequest(req) == ValidateRequest(req.(contentType := otherType))
  {
  }

  /**
   Boundary cases: a charset parameter is allowed, exactly 10 MiB passes, and
   an oversized POST with a wrong content type is reported as 400, not 413.
   */
  lemma ValidationExamples()
    ensures ValidateRequest(Request("POST", "application/json; charset=utf-8", 0)) == Next
    ensures ValidateRequest(Request("POST", "application/json", MaxContentLength)) == Next
    ensures ValidateRequest(Request("POST", "application/json", MaxContentLength + 1)).status == 413
    ensures ValidateRequest(Request("POST", "text/plain", MaxContentLength + 1)).status == 400
    ensures ValidateRequest(Request("GET", "", 0)) == Next
  {
    var withCharset := "application/json; charset=utf-8";
    assert Text.OccursAt(withCharset, JsonMediaType, 0);
    Text.ContainsIffOccurs(withCharset, JsonMediaType);
    assert Text.OccursAt(JsonMediaType, JsonMediaType, 0);
    Text.ContainsIffOccurs(JsonMediaType, JsonMediaType);
    Text.ContainsIffOccurs("text/plain", JsonMediaType);
    forall i | Text.OccursAt("text/plain", JsonMediaType, i)
      ensures false
    {
    }
  }
}

=== FILE: models.dfy ===
/**
 The event values of models/models.go and the enrichment step that turns a
 client payload into the record published to Kafka. The clock, the UUID
 generator and the RFC 3339 parser are not modelled: the current instant and
 the fresh identifier are arguments, and the parser is a function argument so
 that the validator and the enricher can be given the same one.
 */
module Models {
  import opened Wrappers

  /**
   A JSON value as `encoding/json` decodes it into Go's `interface{}`. Go
   decodes every number to a `float64`; here a number is an exact real, so the
   rounding of large or long numbers is not modelled.
   */
  datatype JsonValue =
    | JNull
    | JBool(b: bool)
    | JNumber(value: real)
    | JString(s: string)
    | JArray(items: seq<JsonValue>)
    | JObject(fields: map<string, JsonValue>)

  /**
   A Go `time.Time`: the instant and the UTC offset it is shown in. `time.Parse`
   keeps the offset written in the text; `time.Now().UTC()` has offset 0.
   */
  datatype Instant = Instant(unixNanos: int, offsetSeconds: int)

  /** `time.Parse(time.RFC3339, _)`: `Some` on success. */
  type TimeParser = string -> Option<Instant>

  datatype ClientInfo = ClientInfo(userAgent: string, screenResolution: string, language: string)

  /** `EventPayload`: the body the browser posts; `timestamp` is the raw string. */
  datatype EventPayload = EventPayload(
    eventType: string,
    timestamp: string,
    userID: string,
    sessionID: string,
    pageURL: string,
    eventData: map<string, JsonValue>,
    clientInfo: ClientInfo)

  datatype ServiceInfo = ServiceInfo(serviceName: string, serviceVersion: string, environment: string)

  datatype ProcessingInfo = ProcessingInfo(receivedAt: Instant, processedAt: Instant, processingMs: int)

  /** `EnrichedEvent`: the record serialised to Kafka. */
  datatype EnrichedEvent = EnrichedEvent(
    eventID: string,
    requestID: string,
    eventType: string,
    timestamp: Instant,
    userID: string,
    sessionID: string,
    pageURL: string,
    eventData: map<string, JsonValue>,
    clientInfo: ClientInfo,
    serviceInfo: ServiceInfo,
    processingInfo: ProcessingInfo)

  datatype EventResponse = EventResponse(
    status: string, message: string, eventID: string, requestID: string, timestamp: Instant)

  datatype HealthResponse = HealthResponse(status: string, timestamp: Instant, service: string, version: string)

  datatype ErrorDetail = ErrorDetail(code: string, message: string, requestID: string)

  datatype ErrorResponse = ErrorResponse(error: ErrorDetail)

  const ServiceName: string := "ingestion-service"
  const ServiceVersion: string := "1.0.0"

  /** `getEnvironment`: a constant, not read from the environment. */
  function GetEnvironment(): (env: string)
    ensures env == "development"
  {
    "development"
  }

  /** `NewEventResponse`: a success acknowledgment for the request. */
  function NewEventResponse(requestID: string, eventID: string, now: Instant): (r: EventResponse)
    ensures r.status == "success" && r.requestID == requestID
    ensures r.eventID == eventID && r.timestamp == now
    ensures r.message == "Event received and processed successfully"
  {
    EventResponse("success", "Event received and processed successfully", eventID, requestID, now)
  }

  /** `NewHealthResponse`: always reports healthy; callers overwrite the status. */
  function NewHealthResponse(now: Instant): (r: HealthResponse)
    ensures r.status == "healthy" && r.service == ServiceName && r.version == ServiceVersion
    ensures r.timestamp == now
  {
    HealthResponse("healthy", now, ServiceName, ServiceVersion)
  }

  /** `NewErrorResponse`: the three arguments, nested under `error`. */
  function NewErrorResponse(code: string, message: string, requestID: string): (r: ErrorResponse)
    ensures r.error.code == code && r.error.message == message && r.error.requestID == requestID
  {
    ErrorResponse(ErrorDetail(code, message, requestID))
  }

  /**
   `EnrichEvent`: copies the payload through, stamps the request and event
   identifiers, the constant service info and `now` as both processing
   instants. The event timestamp is the parsed payload timestamp when it is
   non-empty and parses, and `now` otherwise.
   */
  function EnrichEvent(payload: EventPayload, requestID: string, now: Instant, eventID: string,
                       parseTime: TimeParser): (e: EnrichedEvent)
    ensures e.eventID == eventID && e.requestID == requestID
    ensures e.eventType == payload.eventType && e.userID == payload.userID
    ensures e.sessionID == payload.sessionID && e.pageURL == payload.pageURL
    ensures e.eventData == payload.eventData && e.clientInfo == payload.clientInfo
    ensures payload.timestamp != "" && parseTime(payload.timestamp).Some? ==>
              e.timestamp == parseTime(payload.timestamp).value
    ensures payload.timestamp == "" || parseTime(payload.timestamp).None? ==> e.timestamp == now
    ensures e.serviceInfo == ServiceInfo(ServiceName, ServiceVersion, "development")
    ensures e.processingInfo == ProcessingInfo(now, now, 0)
  {
    var timestamp :=
      if payload.timestamp != "" then
        match parseTime(payload.timestamp)
        case Some(parsed) => parsed
        case None => now
      else now;
    EnrichedEvent(
      eventID, requestID, payload.eventType, timestamp, payload.userID, payload.sessionID,
      payload.pageURL, payload.eventData, payload.clientInfo,
      ServiceInfo(ServiceName, ServiceVersion, GetEnvironment()),
      ProcessingInfo(now, now, 0))
  }

  /** The payload fields an enriched event carries, with the original timestamp text. */
  function PayloadOf(e: EnrichedEvent, timestamp: string): EventPayload
  {
    EventPayload(e.eventType, timestamp, e.userID, e.sessionID, e.pageURL, e.eventData, e.clientInfo)
  }

  /** Enrichment loses nothing of the payload but the timestamp text. */
  lemma EnrichKeepsPayload(payload: EventPayload, requestID: string, now: Instant, eventID: string,
                           parseTime: TimeParser)
    ensures PayloadOf(EnrichEvent(payload, requestID, now, eventID, parseTime), payload.timestamp) == payload
  {
  }

  /**
   Everything but the event timestamp is independent of the timestamp text:
   two payloads that differ only there enrich to events that differ only there.
   */
  lemma EnrichTimestampIsolated(payload: EventPayload, otherTimestamp: string, requestID: string,
                                now: Instant, eventID: string, parseTime: TimeParser)
    ensures var e1 := EnrichEvent(payload, requestID, now, eventID, parseTime);
            var e2 := EnrichEvent(payload.(timestamp := otherTimestamp), requestID, now, eventID, parseTime);
            e2 == e1.(timestamp := e2.timestamp)
  {
  }
}

=== FILE: services.dfy ===
/**
 The Kafka producer wrapper of services/kafka_service.go. The sarama client is
 not modelled: creating the async producer, handing a message to its input
 channel and closing it are outcomes supplied by the caller. What remains is
 the configuration mapping, the error precedence, and the two-flag lifecycle
 (service context cancelled, producer present) that gates publishing, health,
 shutdown and statistics.
 */
module Services {
  import opened Wrappers
  import opened Config

  newtype byte = x: int | 0 <= x < 256

  /** sarama's `RequiredAcks`. */
  datatype RequiredAcks = NoResponse | WaitForLocal | WaitForAll

  /** sarama's `CompressionCodec`. */
  datatype CompressionCodec = CompressionNone | CompressionGZIP | CompressionSnappy | CompressionLZ4 | CompressionZSTD

  /** The sarama producer settings `initializeProducer` fills in (durations in milliseconds). */
  datatype ProducerSettings = ProducerSettings(
    requiredAcks: RequiredAcks,
    retryMax: int,
    retryBackoffMs: int,
    flushBytes: int,
    flushFrequencyMs: int,
    compression: CompressionCodec,
    maxMessageBytes: int,
    idempotent: bool,
    maxOpenRequests: int)

  /** Why `initializeProducer` failed. */
  datatype InitError =
    | InvalidAcksValue(acks: string)
    | InvalidCompressionValue(compression: string)
    | ProducerCreationFailed(cause: string)
  {
    function Message(): string
    {
      match this
      case InvalidAcksValue(a) => "invalid acks value: " + a
      case InvalidCompressionValue(c) => "invalid compression: " + c
      case ProducerCreationFailed(c) => "failed to create Kafka producer: " + c
    }
  }

  /** The errors the service's methods return. */
  datatype ServiceError =
    | InitializationFailed(init: InitError)
    | ShuttingDown
    | MarshalFailed(cause: string)
    | SendCancelled
    | ProducerNotInitialized
    | CloseFailed(cause: string)
  {
    function Message(): string
    {
      match this
      case InitializationFailed(e) => "failed to initialize Kafka producer: " + e.Message()
      case ShuttingDown => "kafka service is shutting down"
      case MarshalFailed(c) => "failed to marshal message value: " + c
      case SendCancelled => "context cancelled while sending message"
      case ProducerNotInitialized => "kafka producer is not initialized"
      case CloseFailed(c) => "failed to close Kafka producer: " + c
    }
  }

  /**
   The service: its configuration, the settings of the producer it owns
   (`None` for a nil producer) and whether its context has been cancelled.
   */
  datatype KafkaService = KafkaService(config: KafkaConfig, producer: Option<ProducerSettings>, cancelled: bool)

  /** `sarama.ProducerMessage` as handed to the producer's input channel. */
  datatype ProducerMessage = ProducerMessage(topic: string, key: string, value: seq<byte>)

  /** Which case of the send `select` fired. */
  datatype SendOutcome = Enqueued | CallerContextDone | ServiceContextDone

  /** `sarama.NewAsyncProducer`: `Some(cause)` when it fails. */
  type Connector = (seq<string>, ProducerSettings) -> Option<string>

  /** `encoding/json.Marshal` of a value. */
  type Marshaller<!V> = V -> Result<seq<byte>, string>

  // ---------------------------------------------------------------------------
  // Configuration mapping

  /** The acks switch of `initializeProducer`. */
  function AcksFromString(acks: string): (r: Result<RequiredAcks, InitError>)
    ensures r.Failure? ==> r.error == InvalidAcksValue(acks)
  {
    match acks
    case "all" => Success(WaitForAll)
    case "1" => Success(WaitForLocal)
    case "0" => Success(NoResponse)
    case _ => Failure(InvalidAcksValue(acks))
  }

  /** The compression switch of `initializeProducer`. */
  function CompressionFromString(compression: string): (r: Result<CompressionCodec, InitError>)
    ensures r.Failure? ==> r.error == InvalidCompressionValue(compression)
  {
    match compression
    case "none" => Success(CompressionNone)
    case "gzip" => Success(CompressionGZIP)
    case "snappy" => Success(CompressionSnappy)
    case "lz4" => Success(CompressionLZ4)
    case "zstd" => Success(CompressionZSTD)
    case _ => Failure(InvalidCompressionValue(compression))
  }

  /** The configuration spelling of each acknowledgment level. */
  function AcksName(a: RequiredAcks): string
  {
    match a
    case WaitForAll => "all"
    case WaitForLocal => "1"
    case NoResponse => "0"
  }

  /** The configuration spelling of each codec. */
  function CompressionName(c: CompressionCodec): string
  {
    match c
    case CompressionNone => "none"
    case CompressionGZIP => "gzip"
    case CompressionSnappy => "snappy"
    case CompressionLZ4 => "lz4"
    case CompressionZSTD => "zstd"
  }

  /** The acks switch and its spelling are inverse: the switch accepts exactly the names. */
  lemma AcksRoundTrip(s: string, a: RequiredAcks)
    ensures AcksFromString(AcksName(a)) == Success(a)
    ensures AcksFromString(s).Success? ==> AcksName(AcksFromString(s).value) == s
  {
  }

  /** The compression switch and its spelling are inverse. */
  lemma CompressionRoundTrip(s: string, c: CompressionCodec)
    ensures CompressionFromString(CompressionName(c)) == Success(c)
    ensures CompressionFromString(s).Success? ==> CompressionName(CompressionFromString(s).value) == s
  {
  }

  /**
   Validation admits exactly the acks and compression names the producer
   switches accept, so a validated configuration never reaches their errors.
   */
  lemma ValidationMatchesSwitches(k: KafkaConfig)
    ensures k.acks in AcksNames <==> AcksFromString(k.acks).Success?
    ensures k.compression in CompressionNames <==> CompressionFromString(k.compression).Success?
    ensures Validate(k).None? ==> AcksFromString(k.acks).Success? && CompressionFromString(k.compression).Success?
  {
  }

  /**
   `initializeProducer`: maps acks (checked first), then compression, then asks
   the connector for a producer with the resulting settings.
   */
  function InitializeProducer(config: KafkaConfig, connect: Connector): (r: Result<ProducerSettings, InitError>)
    ensures AcksFromString(config.acks).Failure? ==> r == Failure(InvalidAcksValue(config.acks))
    ensures AcksFromString(config.acks).Success? && CompressionFromString(config.compression).Failure? ==>
              r == Failure(InvalidCompressionValue(config.compression))
    ensures r.Failure? && r.error.ProducerCreationFailed? ==>
              AcksFromString(config.acks).Success? && CompressionFromString(config.compression).Success?
    ensures r.Success? ==> r.value == SettingsFor(config, AcksFromString(config.acks).value,
                                                  CompressionFromString(config.compression).value)
    ensures r.Success? ==> connect(config.brokers, r.value).None?
    ensures AcksFromString(config.acks).Success? && CompressionFromString(config.compression).Success? ==>
              var settings := SettingsFor(config, AcksFromString(config.acks).value,
                                          CompressionFromString(config.compression).value);
              r == (if connect(config.brokers, settings).Some?
                    then Failure(ProducerCreationFailed(connect(config.brokers, settings).value))
                    else Success(settings))
  {
    match AcksFromString(config.acks)
    case Failure(e) => Failure(e)
    case Success(acks) =>
      match CompressionFromString(config.compression)
      case Failure(e) => Failure(e)
      case Success(codec) =>
        var settings := SettingsFor(config, acks, codec);
        match connect(config.brokers, settings)
        case Some(cause) => Failure(ProducerCreationFailed(cause))
        case None => Success(settings)
  }

  /** The producer settings derived from a configuration and its mapped enums. */
  function SettingsFor(config: KafkaConfig, acks: RequiredAcks, codec: CompressionCodec): (s: ProducerSettings)
    ensures s.requiredAcks == acks && s.compression == codec
    ensures s.retryMax == config.retries && s.flushBytes == config.batchSize
    ensures s.flushFrequencyMs == config.lingerMs && s.maxMessageBytes == config.maxMessageBytes
    ensures s.retryBackoffMs == 100 && s.idempotent && s.maxOpenRequests == 1
  {
    ProducerSettings(acks, config.retries, 100, config.batchSize, config.lingerMs, codec,
                     config.maxMessageBytes, true, 1)
  }

  /** With both enumerations wrong, the acks error is the one reported. */
  lemma AcksErrorFirst(config: KafkaConfig, connect: Connector)
    requires config.acks !in AcksNames && config.compression !in CompressionNames
    ensures InitializeProducer(config, connect) == Failure(InvalidAcksValue(config.acks))
  {
  }

  // ---------------------------------------------------------------------------
  // Lifecycle

  /**
   `NewKafkaService`: a live service owning a producer, or, when
   initialisation fails, no service and the wrapped error.
   */
  function NewKafkaService(config: KafkaConfig, connect: Connector): (r: Result<KafkaService, ServiceError>)
    ensures r.Success? <==> InitializeProducer(config, connect).Success?
    ensures r.Success? ==> r.value.config == config && r.value.producer.Some? && !r.value.cancelled
    ensures r.Failure? ==> r.error == InitializationFailed(InitializeProducer(config, connect).error)
  {
    match InitializeProducer(config, connect)
    case Failure(e) => Failure(InitializationFailed(e))
    case Success(settings) => Success(KafkaService(config, Some(settings), false))
  }

  /**
   `PublishMessage`: fails with "shutting down" once the service context is
   cancelled, before serialising; a serialisation failure is returned without
   sending; otherwise the message for the configured topic is offered to the
   producer and the fired `select` case decides the result. The success value
   is the message the producer accepted.
   */
  function PublishMessage<V>(ks: KafkaService, key: string, value: V, marshal: Marshaller<V>,
                             send: ProducerMessage -> SendOutcome): (r: Result<ProducerMessage, ServiceError>)
    requires ks.cancelled || ks.producer.Some?
    ensures ks.cancelled ==> r == Failure(ShuttingDown)
    ensures !ks.cancelled && marshal(value).Failure? ==> r == Failure(MarshalFailed(marshal(value).error))
    ensures r.Success? ==> !ks.cancelled && marshal(value).Success?
    ensures r.Success? ==> r.value == ProducerMessage(ks.config.topic, key, marshal(value).value)
    ensures r.Success? ==> send(r.value) == Enqueued
    ensures !ks.cancelled && marshal(value).Success? ==>
              var m := ProducerMessage(ks.config.topic, key, marshal(value).value);
              (send(m) == Enqueued <==> r.Success?) &&
              (send(m) == CallerContextDone <==> r == Failure(SendCancelled)) &&
              (send(m) == ServiceContextDone <==> r == Failure(ShuttingDown))
  {
    if ks.cancelled then Failure(ShuttingDown)
    else
      match marshal(value)
      case Failure(cause) => Failure(MarshalFailed(cause))
      case Success(bytes) =>
        var message := ProducerMessage(ks.config.topic, key, bytes);
        match send(message)
        case Enqueued => Success(message)
        case CallerContextDone => Failure(SendCancelled)
        case ServiceContextDone => Failure(ShuttingDown)
  }

  /** `PublishEvent`: publishes the event keyed by its identifier. */
  function PublishEvent<V>(ks: KafkaService, event: V, eventID: string, marshal: Marshaller<V>,
                           send: ProducerMessage -> SendOutcome): (r: Result<ProducerMessage, ServiceError>)
    requires ks.cancelled || ks.producer.Some?
    ensures r.Success? ==> r.value.key == eventID && r.value.topic == ks.config.topic
    ensures r.Success? ==> marshal(event).Success? && r.value.value == marshal(event).value
    ensures ks.cancelled ==> r == Failure(ShuttingDown)
    ensures !ks.cancelled ==>
              (r.Success? <==> marshal(event).Success? &&
                               send(ProducerMessage(ks.config.topic, eventID, marshal(event).value)) == Enqueued)
  {
    PublishMessage(ks, eventID, event, marshal, send)
  }

  /** `HealthCheck`: cancelled is reported first, then a missing producer. */
  function HealthCheck(ks: KafkaService): (r: Outcome<ServiceError>)
    ensures r.Pass? <==> !ks.cancelled && ks.producer.Some?
    ensures ks.cancelled ==> r == Fail(ShuttingDown)
    ensures !ks.cancelled && ks.producer.None? ==> r == Fail(ProducerNotInitialized)
  {
    if ks.cancelled then Fail(ShuttingDown)
    else if ks.producer.None? then Fail(ProducerNotInitialized)
    else Pass
  }

  /**
   `Close`: cancels the service context, then closes the producer if there is
   one; `closeError` is the outcome of the producer's own `Close`. The
   producer reference is kept, as in the source.
   */
  function Close(ks: KafkaService, closeError: Option<string>): (r: (KafkaService, Outcome<ServiceError>))
    ensures r.0 == ks.(cancelled := true)
    ensures r.1.Fail? <==> ks.producer.Some? && closeError.Some?
    ensures r.1.Fail? ==> r.1.error == CloseFailed(closeError.value)
  {
    var stopped := ks.(cancelled := true);
    if ks.producer.Some? && closeError.Some? then (stopped, Fail(CloseFailed(closeError.value)))
    else (stopped, Pass)
  }

  /** A value reported by `GetStats`. */
  datatype StatValue = StatString(s: string) | StatStrings(items: seq<string>) | StatInt(n: int)

  /**
   `GetStats`: only a "not_initialized" status without a producer, otherwise
   "active" and an echo of the configuration. The cancelled flag is not read.
   */
  function GetStats(ks: KafkaService): (stats: map<string, StatValue>)
    ensures ks.producer.None? ==> stats == map["status" := StatString("not_initialized")]
    ensures ks.producer.Some? ==>
              stats.Keys == {"status", "brokers", "topic", "compression", "acks", "retries"} &&
              stats["status"] == StatString("active") &&
              stats["brokers"] == StatStrings(ks.config.brokers) &&
              stats["topic"] == StatString(ks.config.topic) &&
              stats["compression"] == StatString(ks.config.compression) &&
              stats["acks"] == StatString(ks.config.acks) &&
              stats["retries"] == StatInt(ks.config.retries)
  {
    if ks.producer.None? then map["status" := StatString("not_initialized")]
    else map[
      "status" := StatString("active"),
      "brokers" := StatStrings(ks.config.brokers),
      "topic" := StatString(ks.config.topic),
      "compression" := StatString(ks.config.compression),
      "acks" := StatString(ks.config.acks),
      "retries" := StatInt(ks.config.retries)]
  }

  // ---------------------------------------------------------------------------
  // Lifecycle properties

  /** A freshly created service is healthy. */
  lemma NewServiceIsHealthy(config: KafkaConfig, connect: Connector)
    requires NewKafkaService(config, connect).Success?
    ensures HealthCheck(NewKafkaService(config, connect).value) == Pass
  {
  }

  /** An initialisation failure is fatal: no service comes back. */
  lemma InvalidConfigNeverConnects(config: KafkaConfig, connect: Connector)
    requires config.acks !in AcksNames || config.compression !in CompressionNames
    ensures NewKafkaService(config, connect).Failure?
    ensures NewKafkaService(config, connect).error.init.InvalidAcksValue? ||
            NewKafkaService(config, connect).error.init.InvalidCompressionValue?
  {
  }

  /**
   After `Close`, whatever the producer's close reported, the service is
   unhealthy and every publish fails as shutting down before serialising,
   while `GetStats` still reports the producer as active.
   */
  lemma CloseStopsService<V>(ks: KafkaService, closeError: Option<string>, key: string, value: V,
                             marshal: Marshaller<V>, send: ProducerMessage -> SendOutcome)
    requires ks.producer.Some?
    ensures var closed := Close(ks, closeError).0;
            HealthCheck(closed) == Fail(ShuttingDown) &&
            PublishMessage(closed, key, value, marshal, send) == Failure(ShuttingDown) &&
            GetStats(closed)["status"] == StatString("active")
  {
  }
}

=== FILE: text.dfy ===
/**
 The few Go standard-library string routines the service relies on, written out
 so that their edge cases are visible: `strings.Split`/`strings.Join` with a
 one-character separator, `strings.Contains`, and `strconv.Atoi` for a 64-bit `int`.
 */
module Text {
  import opened Wrappers

  /** Number of occurrences of `c` in `s`. */
  function Count(s: string, c: char): nat
  {
    if |s| == 0 then 0 else (if s[0] == c then 1 else 0) + Count(s[1..], c)
  }

  /** `strings.Split(s, [sep])`: every piece between separators, no trimming. */
  function Split(s: string, sep: char): (pieces: seq<string>)
    ensures |pieces| >= 1
    ensures forall i :: 0 <= i < |pieces| ==> sep !in pieces[i]
  {
    if |s| == 0 then [""]
    else
      var rest := Split(s[1..], sep);
      if s[0] == sep then [""] + rest
      else [[s[0]] + rest[0]] + rest[1..]
  }

  /** `strings.Join(xs, [sep])`. */
  function Join(xs: seq<string>, sep: char): string
  {
    if |xs| == 0 then ""
    else if |xs| == 1 then xs[0]
    else xs[0] + [sep] + Join(xs[1..], sep)
  }

  /** `k` separators give `k + 1` pieces. */
  lemma {:induction false} SplitCount(s: string, sep: char)
    ensures |Split(s, sep)| == Count(s, sep) + 1
  {
    if |s| > 0 {
      SplitCount(s[1..], sep);
    }
  }

  /** Joining the pieces with the separator restores the input. */
  lemma {:induction false} JoinSplit(s: string, sep: char)
    ensures Join(Split(s, sep), sep) == s
  {
    if |s| > 0 {
      var rest := Split(s[1..], sep);
      JoinSplit(s[1..], sep);
      if s[0] == sep {
        assert Split(s, sep) == [""] + rest;
        assert Join([""] + rest, sep) == "" + [sep] + Join(rest, sep);
        assert s == [sep] + s[1..];
      } else if |rest| == 1 {
        assert Join(Split(s, sep), sep) == [s[0]] + rest[0];
        assert s == [s[0]] + s[1..];
      } else {
        var pieces := Split(s, sep);
        assert pieces == [[s[0]] + rest[0]] + rest[1..];
        assert pieces[1..] == rest[1..];
        assert Join(rest, sep) == rest[0] + [sep] + Join(rest[1..], sep);
        assert s == [s[0]] + s[1..];
      }
    }
  }

  /** Splitting a separator-free prefix glues it onto the first piece of the rest. */
  lemma {:induction false} SplitFreePrefix(a: string, tail: string, sep: char)
    requires sep !in a
    ensures Split(a + tail, sep) == [a + Split(tail, sep)[0]] + Split(tail, sep)[1..]
  {
    if |a| > 0 {
      SplitFreePrefix(a[1..], tail, sep);
      assert (a + tail)[1..] == a[1..] + tail;
      assert (a + tail)[0] == a[0];
      assert [a[0]] + (a[1..] + Split(tail, sep)[0]) == a + Split(tail, sep)[0];
    } else {
      assert a + tail == tail;
      var pieces := Split(tail, sep);
      assert pieces == [pieces[0]] + pieces[1..];
      assert a + pieces[0] == pieces[0];
    }
  }

  /** Splitting a join of separator-free pieces gives the pieces back. */
  lemma {:induction false} SplitJoin(xs: seq<string>, sep: char)
    requires |xs| >= 1
    requires forall i :: 0 <= i < |xs| ==> sep !in xs[i]
    ensures Split(Join(xs, sep), sep) == xs
  {
    if |xs| == 1 {
      SplitFreePrefix(xs[0], "", sep);
      assert xs[0] + "" == xs[0];
    } else {
      var tail := [sep] + Join(xs[1..], sep);
      assert Join(xs, sep) == xs[0] + tail;
      SplitFreePrefix(xs[0], tail, sep);
      SplitJoin(xs[1..], sep);
      assert tail[1..] == Join(xs[1..], sep);
      assert Split(tail, sep) == [""] + xs[1..];
      assert xs[0] + "" == xs[0];
    }
  }

  /** `sub` occurs in `s` starting at index `i`. */
  predicate OccursAt(s: string, sub: string, i: int)
  {
    0 <= i && i + |sub| <= |s| && s[i..i + |sub|] == sub
  }

  /** `strings.Contains(s, sub)`, scanning from the left. */
  function Contains(s: string, sub: string): (r: bool)
    ensures r ==> |sub| <= |s|
    ensures sub == [] ==> r
    ensures sub == s ==> r
  {
    (|sub| <= |s| && s[..|sub|] == sub) || (|s| > 0 && Contains(s[1..], sub))
  }

  /** `Contains` holds exactly when `sub` occurs at some index of `s`. */
  lemma {:induction false} ContainsIffOccurs(s: string, sub: string)
    ensures Contains(s, sub) <==> exists i :: OccursAt(s, sub, i)
  {
    if |sub| <= |s| && s[..|sub|] == sub {
      assert OccursAt(s, sub, 0);
    } else if |s| > 0 {
      ContainsIffOccurs(s[1..], sub);
      if Contains(s[1..], sub) {
        var i :| OccursAt(s[1..], sub, i);
        assert s[i + 1..i + 1 + |sub|] == s[1..][i..i + |sub|];
        assert OccursAt(s, sub, i + 1);
      } else {
        forall i | OccursAt(s, sub, i)
          ensures false
        {
          assert i != 0;
          assert s[1..][i - 1..i - 1 + |sub|] == s[i..i + |sub|];
          assert OccursAt(s[1..], sub, i - 1);
        }
      }
    } else {
      forall i | OccursAt(s, sub, i)
        ensures false
      {
      }
    }
  }

  // ---------------------------------------------------------------------------
  // Decimal integers

  const MinInt64: int := -0x8000_0000_0000_0000
  const MaxInt64: int := 0x7FFF_FFFF_FFFF_FFFF

  predicate IsDigit(c: char)
  {
    '0' <= c <= '9'
  }

  predicate AllDigits(s: string)
  {
    forall i :: 0 <= i < |s| ==> IsDigit(s[i])
  }

  /** The value of a string of decimal digits, most significant first. */
  function DigitsValue(s: string): nat
    requires AllDigits(s)
  {
    if |s| == 0 then 0
    else DigitsValue(s[..|s| - 1]) * 10 + (s[|s| - 1] as int - '0' as int)
  }

  /**
   `strconv.Atoi` on a 64-bit platform: an optional `+` or `-`, then at least
   one decimal digit, with the value inside the `int64` range. Anything else
   (empty, a bare sign, spaces, underscores, a prefix, overflow) is an error.
   */
  function Atoi(s: string): (r: Option<int>)
    ensures r.Some? ==> MinInt64 <= r.value <= MaxInt64
    ensures r.Some? ==> |s| > 0 && (IsDigit(s[0]) || s[0] == '+' || s[0] == '-')
    ensures r.Some? ==> AllDigits(s[1..]) && IsDigit(s[|s| - 1])
    ensures |s| > 0 && AllDigits(s) && DigitsValue(s) <= MaxInt64 ==> r == Some(DigitsValue(s))
    ensures |s| > 1 && s[0] == '+' && AllDigits(s[1..]) && DigitsValue(s[1..]) <= MaxInt64 ==>
              r == Some(DigitsValue(s[1..]))
    ensures |s| > 1 && s[0] == '-' && AllDigits(s[1..]) && MinInt64 <= 0 - DigitsValue(s[1..]) ==>
              r == Some(0 - DigitsValue(s[1..]))
  {
    var signed := |s| > 0 && (s[0] == '+' || s[0] == '-');
    var digits := if signed then s[1..] else s;
    if |digits| == 0 || !AllDigits(digits) then None
    else
      var n: int := if signed && s[0] == '-' then 0 - DigitsValue(digits) as int else DigitsValue(digits);
      if MinInt64 <= n <= MaxInt64 then Some(n) else None
  }

  /** An accepted text's value is that of its digits, negated after a `-`. */
  lemma AtoiValue(s: string)
    requires Atoi(s).Some?
    ensures IsDigit(s[0]) ==> Atoi(s).value == DigitsValue(s)
    ensures s[0] == '+' ==> Atoi(s).value == DigitsValue(s[1..])
    ensures s[0] == '-' ==> Atoi(s).value == 0 - DigitsValue(s[1..])
  {
  }

  /** The shortest decimal spelling of a natural number. */
  function FormatNat(n: nat): string
  {
    if n < 10 then [('0' as int + n) as char]
    else FormatNat(n / 10) + [('0' as int + n % 10) as char]
  }

  /** `strconv.Itoa`: a leading `-` for negative numbers. */
  function FormatInt(n: int): string
  {
    if n < 0 then "-" + FormatNat(-n) else FormatNat(n)
  }

  lemma {:induction false} FormatNatDigits(n: nat)
    ensures |FormatNat(n)| >= 1
    ensures AllDigits(FormatNat(n))
    ensures DigitsValue(FormatNat(n)) == n
  {
    var s := FormatNat(n);
    if n >= 10 {
      FormatNatDigits(n / 10);
      assert s[..|s| - 1] == FormatNat(n / 10);
    }
  }

  /** `Atoi` reads back every `int64` that `FormatInt` spells. */
  lemma AtoiFormatInt(n: int)
    requires MinInt64 <= n <= MaxInt64
    ensures Atoi(FormatInt(n)) == Some(n)
  {
    var s := FormatInt(n);
    if n < 0 {
      FormatNatDigits(-n);
      assert s == "-" + FormatNat(-n);
      assert s[0] == '-';
      assert s[1..] == FormatNat(-n);
      assert Atoi(s) == Some(0 - DigitsValue(FormatNat(-n)) as int);
    } else {
      FormatNatDigits(n);
      var d := FormatNat(n);
      assert s == d;
      assert IsDigit(d[0]);
      assert Atoi(s) == Some(DigitsValue(d));
    }
  }
}

=== FILE: wrappers.dfy ===
/** Failure-carrying values used in place of Go's `(value, error)` pairs. */
module Wrappers {

  /** A value that may be absent. */
  datatype Option<+T> = None | Some(value: T)

  /** Either a computed value or the error that replaced it. */
  datatype Result<+R, +E> = Success(value: R) | Failure(error: E)

  /** A bare `error` return: `Pass` is Go's `nil`. */
  datatype Outcome<+E> = Pass | Fail(error: E)
}
